=== FILE: README.md ===
# whatsmapper transcript mapping, in Dafny

A model of the core of whatsmapper. The model covers three parts of it:

- **`whatsmap_to_data`** turns an exported WhatsApp chat transcript into a record of entries.
- **`whatsapp_to_stats`** counts that record.
- **`attachment_as_href`, `chat_as_html` and `data_to_html`** render the record as HTML.

The mapping cuts the transcript text into lines with `str.splitlines()` and classifies every line on its own, in this order:

1. **Attachment line.** The line holds `<attached:`. The file name is what follows the first marker, stripped, with every `>` removed. The extension is `name.split(".")[1]`, the piece between the first dot and the next dot, or the end of the name. The extension is recorded even when the file is missing. An `Attachment` entry is added only when the file exists next to the transcript.
2. **Link line.** The line holds `http`, and the test for `https` adds nothing. The line is dropped.
3. **Chat line.** The date is the text up to and including the first `]`. The sender is the text from that `]` to the next `:`, stripped. The text is `line.split(sender)[1]` with its first `:` removed, then stripped.
   - A line without `]` is skipped.
   - A blank sender makes `split` raise `ValueError`. Nothing catches it, so the whole mapping fails.

Senders and extensions are collected as sets.

Modules:

- `Wrappers`: `Option` and `Result`.
- `PyStr`: the Python `str` operations the mapper uses, with their exact Python semantics. These are `in`/`find`, `split(sep, 1)`, `split(sep)`, `strip()`, `replace(">", "")` and `replace(":", "", 1)`.
- `Lines`: `splitlines()`, including every line boundary Python recognises, with `\r\n` counted as one break.
- `Transcript`: the classifier and the accumulation loop.
- `Stats`: the counting loop and the statistics list.
- `Render`: the HTML snippets and their concatenation.
- `Scenarios`: concrete lines and the outcome the mapper gives for each.

Two things are parameters:

- The folder: its path joining and its `exists()` test (`Transcript.Folder`).
- The transcript text, which is already decoded.

The two icon images are uninterpreted constants (`Render.VideoImage` and `Render.FileImage`).

How the code treats a line:

- Each physical line is classified on its own; nothing carries over from one line to the next. There is no normalising of lines, no wrapping of hyperlinks and no merging of continuation lines.
- A link line is dropped; nothing is recorded for it.
- The chat text is `line.split(sender)[1]`: the text from the end of the sender's first occurrence to the next occurrence that starts at or after that end, or to the end of the line. `split` cuts at *every* non-overlapping occurrence of the sender, scanning from left to right.
  - A sender named again inside the message truncates the text.
  - A sender whose name first occurs inside the date garbles it.
  - `Scenarios.RepeatedSenderTruncates` and `Scenarios.SenderInDateGarblesText` show both cases.
- A line with the Error outcome (neither marker nor link, a `]`, and a blank sender) aborts the whole mapping instead of being skipped. A link line with a blank sender is dropped before the sender is read, so it raises nothing (`Scenarios.BlankSenderLinkSkipped`).

## Model

| member | source | states |
|---|---|---|
| PyStr.Find | src/whatsmapper/whatsmap.py:140 | the result is the lowest index where the pattern occurs; absent exactly when it occurs nowhere |
| PyStr.ContainsChar | src/whatsmapper/whatsmap.py:158 | for a one-character pattern, `in` is plain membership |
| PyStr.SplitOnce | src/whatsmapper/whatsmap.py:165 | `split(sep, 1)` gives two pieces exactly when `sep` occurs. The pieces rejoin with `sep` into the input. The cut is at the first occurrence, so the first piece holds no `sep`. Without `sep`, the only piece is the input |
| PyStr.Split | src/whatsmapper/whatsmap.py:145 | `split(sep)` has at least two pieces exactly when `sep` occurs; its first piece is the one `split(sep, 1)` gives |
| PyStr.SplitJoin | src/whatsmapper/whatsmap.py:145 | joining the pieces of `split(sep)` with `sep` gives back the string |
| PyStr.SplitPiecesFree | src/whatsmapper/whatsmap.py:167 | no piece of `split(sep)` contains `sep` |
| PyStr.SecondPiece | src/whatsmapper/whatsmap.py:145 | `split(sep)[1]` is present exactly when `sep` occurs; Python raises `IndexError` otherwise |
| PyStr.SecondPieceOfSplit | src/whatsmapper/whatsmap.py:145 | `SecondPiece` is element 1 of the full split, and absent exactly when the split has fewer than two pieces |
| PyStr.SecondPieceSpan | src/whatsmapper/whatsmap.py:167 | the second piece is the span of the string from just after the first `sep` to the next `sep`, or to the end |
| PyStr.PieceToNext | src/whatsmapper/whatsmap.py:167 | such a span ends where a left-to-right scan for the next `sep` stops |
| PyStr.SplitSecondBetween | src/whatsmapper/whatsmap.py:145 | in `a c mid c b`, with no `c` in `a` or `mid`, the second piece of the split on `c` is `mid` |
| PyStr.Strip | src/whatsmapper/whatsmap.py:166 | `strip()` keeps a span of the input. Only whitespace lies before and after the span, and the span neither starts nor ends with whitespace |
| PyStr.StripOccurs | src/whatsmapper/whatsmap.py:166 | when a text occurs in a string, its stripped form occurs there too |
| PyStr.StripKeepsAbsence | src/whatsmapper/whatsmap.py:166 | stripping introduces nothing: a pattern absent from a text is absent from the stripped text |
| PyStr.StripSpan | src/whatsmapper/whatsmap.py:166 | any span with whitespace-only margins and non-space ends is what `strip()` returns |
| PyStr.RemoveAll | src/whatsmapper/whatsmap.py:143 | `replace(">", "")` leaves no `>`, and changes nothing in a string without one |
| PyStr.RemoveAllCount | src/whatsmapper/whatsmap.py:143 | `replace(">", "")` keeps every other character with its multiplicity |
| PyStr.RemoveAllAppend | src/whatsmapper/whatsmap.py:143 | removing a character distributes over concatenation |
| PyStr.ReplaceFirst | src/whatsmapper/whatsmap.py:167 | `replace(":", "", 1)` deletes exactly the first `:`; without a `:` it changes nothing |
| Lines.SplitLines | src/whatsmapper/whatsmap.py:138 | every line is free of line boundaries; there are no more lines than characters; the empty text has no lines |
| Lines.SplitLinesKeepsText | src/whatsmapper/whatsmap.py:138 | the lines, concatenated, are the text with its line boundaries removed; nothing else is lost or reordered |
| Lines.SplitLinesCuts | src/whatsmapper/whatsmap.py:138 | the text is the lines, each followed by one whole break (a boundary character, or `\r\n` together), the last line possibly without one; a lone `\r` is never followed by `\n` |
| Lines.SplitLinesUnique | src/whatsmapper/whatsmap.py:138 | any such cut of the text into lines and whole breaks is the one `splitlines()` makes, so the lines are fixed by where the breaks lie |
| Transcript.AttachmentFileName | src/whatsmapper/whatsmap.py:143 | the file name holds no `>` |
| Transcript.AttachmentFileNameSpan | src/whatsmapper/whatsmap.py:143 | the name is the text after the first `<attached:`, stripped, with every `>` removed |
| Transcript.ExtensionOf | src/whatsmapper/whatsmap.py:145 | an extension exists exactly when the name holds a dot, and it holds no dot |
| Transcript.ChatDate | src/whatsmapper/whatsmap.py:165 | the date is the line's prefix up to and including the first `]`, or the whole line plus `]` when there is none |
| Transcript.Individual | src/whatsmapper/whatsmap.py:166 | a sender exists exactly when the line holds `]`; it holds no `:` and occurs in the line |
| Transcript.SenderField | src/whatsmapper/whatsmap.py:166 | the sender field is the span from just after the first `]` to the next `:`, or to the end of the line |
| Transcript.IndividualSpan | src/whatsmapper/whatsmap.py:166 | the sender is that span, stripped |
| Transcript.ChatText | src/whatsmapper/whatsmap.py:167 | the chat text exists exactly when the sender occurs in the line |
| Transcript.ChatTextSpan | src/whatsmapper/whatsmap.py:167 | the chat text runs from just after the sender's first occurrence to its next occurrence, or to the end of the line. Its first `:` is removed and the result is stripped |
| Transcript.HttpsImpliesHttp | src/whatsmapper/whatsmap.py:158 | a line holding `https` holds `http`, so the second test never decides anything |
| Transcript.ClassifyLine | src/whatsmapper/whatsmap.py:140-172 | see "Per-line outcomes of ClassifyLine" below |
| Transcript.LineEntries | src/whatsmapper/whatsmap.py:141-178 | a line adds at most one entry, and one exactly for a found attachment or a chat line. A found attachment adds an `Attachment` with the resolved path and the extension, or `""` when the name has none. A chat line adds a `ChatEntry` with its date, sender and text |
| Transcript.SendersSpec | src/whatsmapper/whatsmap.py:168-169 | a sender is collected exactly when some line yields it |
| Transcript.ExtensionsSpec | src/whatsmapper/whatsmap.py:147 | an extension is collected exactly when some attachment line records it, whether or not its file exists |
| Transcript.FirstEmptySender | src/whatsmapper/whatsmap.py:166-167 | the index of the first line with the Error outcome (neither marker nor link, a `]`, and a blank sender): that line has it, no earlier line does, and there is none exactly when no line has it |
| Transcript.FirstEmptySenderAt | src/whatsmapper/whatsmap.py:166-167 | a line with the Error outcome that no earlier line with that outcome precedes is the one `FirstEmptySender` finds |
| Transcript.PrefixStep | src/whatsmapper/whatsmap.py:138-170 | one more line extends the entries by that line's entries and adds its sender and its extension, if any |
| Transcript.Accumulate | src/whatsmapper/whatsmap.py:138-181 | see "What Accumulate promises" below |
| Transcript.WhatsmapToData | src/whatsmapper/whatsmap.py:121-182 | the same promises as `Accumulate`, for the lines `splitlines()` cuts the transcript into |
| Transcript.EntriesAppend | src/whatsmapper/whatsmap.py:155 | the entries of two consecutive chunks of lines are concatenated in order |
| Transcript.EntriesOrigin | src/whatsmapper/whatsmap.py:178 | every entry comes from its own line, and entries keep the order of their lines |
| Stats.CountsPartition | src/whatsmapper/whatsmap.py:105-109 | every entry counts once, as an attachment or as a chat |
| Stats.CountEntries | src/whatsmapper/whatsmap.py:103-109 | the loop counts attachments and chats, and the two counts add up to the number of entries |
| Stats.CountsOfMappedLines | src/whatsmapper/whatsmap.py:151-156 | on a mapped transcript, the attachment count is the number of attachment lines whose file exists. The chat count is the number of chat lines |
| Stats.NatToString | src/whatsmapper/whatsmap.py:113 | `str(n)` is non-empty decimal digits with no leading zero |
| Stats.ParseNatToString | src/whatsmapper/whatsmap.py:113 | reading the digits of `str(n)` back gives `n` |
| Stats.NatToStringInjective | src/whatsmapper/whatsmap.py:113 | different numbers print differently |
| Stats.CountsHtmlFramed | src/whatsmapper/whatsmap.py:111-118 | the statistics list opens with `<ul>` and closes with `</ul>` |
| Stats.CountsHtmlInjective | src/whatsmapper/whatsmap.py:111-118 | the statistics list determines all four numbers, so formatting loses nothing |
| Stats.WhatsappToStats | src/whatsmapper/whatsmap.py:101-118 | attachments plus entries is the number of transcript entries; individuals and extensions are the sizes of the collected sets; the text is the four-item list |
| Render.AttachmentAsHref | src/whatsmapper/whatsmap.py:62-69 | `mp4` becomes a video-icon link; `jpg` or `png` becomes an inline image, and only they do; any other extension, the empty one included, becomes a file-icon link |
| Render.LinkIsNotImage | src/whatsmapper/whatsmap.py:66-68 | a link snippet never equals an inline-image snippet |
| Render.AttachmentTargetsPath | src/whatsmapper/whatsmap.py:66-69 | every attachment snippet points at the attachment's path, when the path has no single quote |
| Render.ChatAsHtml | src/whatsmapper/whatsmap.py:78-80 | a chat snippet opens a message `div` right after its indent |
| Render.ChatAsHtmlReadBack | src/whatsmapper/whatsmap.py:78-80 | for texts without a line break, equal snippets have equal texts and the same `date: sender` heading, so the text can be read back from the snippet |
| Render.EntryAsHtml | src/whatsmapper/whatsmap.py:94-97 | an entry's snippet opens a message `div` exactly when the entry is a chat entry, so an attachment's link or image is never taken for a message |
| Render.ConcatMapAppend | src/whatsmapper/whatsmap.py:93-97 | concatenating per-item texts over two parts gives the two results one after the other |
| Render.RenderAppend | src/whatsmapper/whatsmap.py:90-98 | rendering a transcript in two parts gives the two renderings one after the other |
| Render.DataToHtml | src/whatsmapper/whatsmap.py:90-98 | the output is the in-order concatenation of every entry's snippet |
| Scenarios.RepeatedSenderTruncates | src/whatsmapper/whatsmap.py:167 | `[1] A: x A y` maps to date `[1]`, sender `A` and text `x`, so the text stops at the second `A` |
| Scenarios.SenderInDateGarblesText | src/whatsmapper/whatsmap.py:167 | `[1] 1: hi` maps to sender `1` and text `]`, because the sender first occurs inside the date |
| Scenarios.ExtensionIsSecondSegment | src/whatsmapper/whatsmap.py:143-147 | `<attached: a.b.c>` names `a.b.c`, whose extension is `b`, recorded whether or not the file exists |
| Scenarios.LinkLineSender | src/whatsmapper/whatsmap.py:166 | the sender of `[1] : http` is blank |
| Scenarios.BlankSenderLinkSkipped | src/whatsmapper/whatsmap.py:158-160 | `[1] : http` is a link line: it is dropped at the link test, so its blank sender does not make the mapping fail |
| Scenarios.BlankSenderFails | src/whatsmapper/whatsmap.py:166-167 | `[1] : x` has a blank sender and is the Error outcome |

### Per-line outcomes of ClassifyLine

Each outcome holds exactly in the case given:

- **Attachment outcome**: the line holds `<attached:`. Its extension is that of the name, and it is "found" exactly when the resolved path exists.
- **Link outcome**: the line holds no marker but holds `http`.
- **Skipped**: the line holds neither marker nor link, and has no `]`.
- **Error**: the line holds neither marker nor link, has a `]`, and its sender is blank.
- **Chat line**: the line holds neither marker nor link, has a `]` and a non-empty sender; it carries the date, that sender and the chat text.

### What Accumulate promises

The loop is compared with three reference definitions over the classified lines. `Entries` concatenates every line's entries in order. `Senders` is the set of senders the chat lines yield. `Extensions` is the set of extensions the attachment lines record. `SendersSpec` and `ExtensionsSpec` state the sets element by element.

- The mapping fails exactly when some line holds neither marker nor link, has a `]`, and has a blank sender (the Error outcome). `FirstEmptySender` finds the first such line, and the error reports its index.
- Otherwise the result holds `Senders`, `Entries` and `Extensions` of the lines.

## Left out

- Reading the transcript file and decoding its bytes: the model takes the decoded text as input.
- `pathlib` path joining and `exists()`: they are the two functions of `Transcript.Folder`, passed in. On Python 3.12 and earlier, `Path.exists()` re-raises some `OSError`s, such as `ENAMETOOLONG` for an overlong name, and that aborts the mapping; this failure path is not modelled, and `exists()` is taken to answer every path.
- Logging (every `logger` call), `main`, argument parsing and `check_path`: side effects or command-line plumbing that never change the mapping.
- The base64 icon images and the HTML header and footer text: `Render.VideoImage` and `Render.FileImage` are uninterpreted constants.
- The order of `list(set(...))`, which depends on hashing: senders and extensions are modelled as sets. The `individual not in individuals` test before appending only avoids duplicates, which a set gives for free.
- `Transcript.ChatText`: its own contract states only when the text is present. Its content is stated by `Transcript.ChatTextSpan`, which takes the start index as a parameter.
- `Transcript.AttachmentFileName`: its own contract states only that no `>` is left. The text the name comes from is stated by `Transcript.AttachmentFileNameSpan`, which takes the marker's end as a parameter.
- `Transcript.Individual`: its own contract states presence, that the sender holds no `:` and that it occurs in the line. Its value, the stripped span from the first `]` to the next `:`, is stated by `Transcript.IndividualSpan`.
- `PyStr.SecondPiece`: its own contract states only when the piece is present. The piece's content is stated by `PyStr.SecondPieceOfSplit` (element 1 of the full split) and `PyStr.SecondPieceSpan` (the span up to the next separator).
- `Transcript.ExtensionOf`: its own contract states presence and the absence of dots. Where the piece lies in the name is stated by `PyStr.SecondPieceSpan`.
- `PyStr.IsSpace`: the whitespace `str.strip()` removes is the fixed set of code points for which `str.isspace()` holds in current Python. A later Unicode version that adds spaces is not followed.

=== FILE: lines.dfy ===
/**
 `str.splitlines()`: cutting a text into lines at every line boundary Python
 recognises, and what the cut keeps.
 */
module Lines {

  /** The characters `str.splitlines()` treats as line boundaries. */
  const LineBoundaries: set<char> :=
    {'\n', '\r', '\U{0B}', '\U{0C}', '\U{1C}', '\U{1D}', '\U{1E}', '\U{85}', '\U{2028}', '\U{2029}'}

  predicate IsLineBoundary(c: char) {
    c in LineBoundaries
  }

  /** `s` holds no line boundary. */
  predicate IsOneLine(s: string) {
    forall c :: c in s ==> !IsLineBoundary(c)
  }

  /** Index of the first line boundary in `s`, or `|s|`. */
  function FirstBoundary(s: string): (n: nat)
    ensures n <= |s|
    ensures IsOneLine(s[..n])
    ensures n < |s| ==> IsLineBoundary(s[n])
  {
    if s == [] || IsLineBoundary(s[0]) then 0
    else
      var m := FirstBoundary(s[1..]);
      assert s[..1 + m] == [s[0]] + s[1..][..m];
      1 + m
  }

  /** Width of the line break at `n`: `\r\n` counts as one break of two characters. */
  function BreakWidth(s: string, n: nat): (w: nat)
    requires n < |s|
    ensures 1 <= w <= 2 && n + w <= |s|
    ensures w == 2 <==> s[n] == '\r' && n + 1 < |s| && s[n + 1] == '\n'
  {
    if s[n] == '\r' && n + 1 < |s| && s[n + 1] == '\n' then 2 else 1
  }

  /** `s.splitlines()`: lines without their terminators; `\r\n` ends one line. */
  function SplitLines(s: string): (r: seq<string>)
    ensures forall k :: 0 <= k < |r| ==> IsOneLine(r[k])
    ensures |r| <= |s|
    ensures s == [] <==> r == []
    decreases |s|
  {
    if s == [] then []
    else
      var n := FirstBoundary(s);
      if n == |s| then [s]
      else
        [s[..n]] + SplitLines(s[n + BreakWidth(s, n)..])
  }

  /** A line break as `splitlines()` reads it: one boundary character, or `\r\n`. */
  predicate IsBreak(b: string) {
    (|b| == 1 && IsLineBoundary(b[0])) || b == "\r\n"
  }

  /**
   Reference definition of a cut: `s` is `lines[0] + breaks[0] + lines[1] + …`.
   Every line is free of boundaries and every break is whole: a `\r` break never
   leaves the `\n` after it behind. A last line with no break after it is not empty.
   */
  predicate CutInto(s: string, lines: seq<string>, breaks: seq<string>)
    decreases |lines|
  {
    if lines == [] then s == [] && breaks == []
    else if breaks == [] then |lines| == 1 && s == lines[0] && s != [] && IsOneLine(s)
    else
      var n := |lines[0]| + |breaks[0]|;
      && IsOneLine(lines[0])
      && IsBreak(breaks[0])
      && n <= |s|
      && s[..n] == lines[0] + breaks[0]
      && (breaks[0] == "\r" && n < |s| ==> s[n] != '\n')
      && CutInto(s[n..], lines[1..], breaks[1..])
  }

  /** A boundary with none before it is the first boundary. */
  lemma FirstBoundaryAt(s: string, k: nat)
    requires k <= |s| && IsOneLine(s[..k])
    requires k < |s| ==> IsLineBoundary(s[k])
    ensures FirstBoundary(s) == k
  {
  }

  /** A whole line and a whole break in front of a cut text make a cut of the longer text. */
  lemma CutIntoCons(s: string, l: string, b: string, lines: seq<string>, breaks: seq<string>)
    requires IsOneLine(l) && IsBreak(b)
    requires |l| + |b| <= |s| && s[..|l| + |b|] == l + b
    requires b == "\r" && |l| + 1 < |s| ==> s[|l| + 1] != '\n'
    requires CutInto(s[|l| + |b|..], lines, breaks)
    ensures CutInto(s, [l] + lines, [b] + breaks)
  {
    assert ([l] + lines)[1..] == lines;
    assert ([b] + breaks)[1..] == breaks;
  }

  /** The break strings `splitlines()` drops, in order. */
  function LineBreaks(s: string): seq<string>
    decreases |s|
  {
    if s == [] then []
    else
      var n := FirstBoundary(s);
      if n == |s| then []
      else [s[n..n + BreakWidth(s, n)]] + LineBreaks(s[n + BreakWidth(s, n)..])
  }

  /** One step of `splitlines()`: the first line and its break, then the rest. */
  lemma SplitLinesStep(s: string, n: nat, w: nat, rest: string)
    requires n == FirstBoundary(s) < |s| && w == BreakWidth(s, n) && rest == s[n + w..]
    ensures SplitLines(s) == [s[..n]] + SplitLines(rest)
    ensures LineBreaks(s) == [s[n..n + w]] + LineBreaks(rest)
  {
  }

  /** The characters a break at `n` spans form a whole break. */
  lemma BreakAt(s: string, n: nat, w: nat, b: string)
    requires n < |s| && IsLineBoundary(s[n]) && w == BreakWidth(s, n) && b == s[n..n + w]
    ensures IsBreak(b)
    ensures b == "\r" && n + 1 < |s| ==> s[n + 1] != '\n'
  {
    assert b[0] == s[n];
    if w == 2 {
      assert b[1] == s[n + 1];
    }
  }

  /** `splitlines()` cuts the text at its breaks, and each break it uses is whole. */
  lemma {:induction false} SplitLinesCuts(s: string)
    ensures CutInto(s, SplitLines(s), LineBreaks(s))
    decreases |s|
  {
    if s != [] {
      var n := FirstBoundary(s);
      if n == |s| {
        assert s[..n] == s;
      } else {
        var w := BreakWidth(s, n);
        var rest := s[n + w..];
        SplitLinesCuts(rest);
        SplitLinesStep(s, n, w, rest);
        CutsStep(s, n, w, SplitLines(rest), LineBreaks(rest));
      }
    }
  }

  /** The cut of the text after the first break extends to the whole text. */
  lemma CutsStep(s: string, n: nat, w: nat, lines: seq<string>, breaks: seq<string>)
    requires n == FirstBoundary(s) < |s| && w == BreakWidth(s, n)
    requires CutInto(s[n + w..], lines, breaks)
    ensures CutInto(s, [s[..n]] + lines, [s[n..n + w]] + breaks)
  {
    var l, b := s[..n], s[n..n + w];
    BreakAt(s, n, w, b);
    assert s[..n + w] == l + b;
    CutIntoCons(s, l, b, lines, breaks);
  }

  /** The first line of a cut ends at the first boundary, and its break has the width `splitlines()` gives it. */
  lemma CutHead(s: string, lines: seq<string>, breaks: seq<string>)
    requires CutInto(s, lines, breaks) && lines != [] && breaks != []
    ensures FirstBoundary(s) == |lines[0]| < |s|
    ensures BreakWidth(s, |lines[0]|) == |breaks[0]|
    ensures s[..|lines[0]|] == lines[0]
    ensures CutInto(s[|lines[0]| + |breaks[0]|..], lines[1..], breaks[1..])
  {
    var l, b := lines[0], breaks[0];
    var n := |l| + |b|;
    assert s[..|l|] == l && s[|l|] == b[0] by {
      assert s[..n][..|l|] == l && s[..n][|l|] == b[0];
    }
    FirstBoundaryAt(s, |l|);
    if b == "\r\n" {
      assert s[|l| + 1] == s[..n][|l| + 1];
    }
  }

  /** Any cut of the text into whole lines at whole breaks is the one `splitlines()` makes. */
  lemma {:induction false} SplitLinesUnique(s: string, lines: seq<string>, breaks: seq<string>)
    requires CutInto(s, lines, breaks)
    ensures SplitLines(s) == lines
    decreases |lines|
  {
    if lines != [] {
      if breaks == [] {
        FirstBoundaryAt(s, |s|);
        assert s[..|s|] == s;
      } else {
        CutHead(s, lines, breaks);
        var n, w := |lines[0]|, |breaks[0]|;
        var rest := s[n + w..];
        SplitLinesUnique(rest, lines[1..], breaks[1..]);
        SplitLinesStep(s, n, w, rest);
        assert lines == [lines[0]] + lines[1..];
      }
    }
  }

  /** `s` with every line boundary removed. */
  function DropBoundaries(s: string): string {
    if s == [] then []
    else if IsLineBoundary(s[0]) then DropBoundaries(s[1..])
    else [s[0]] + DropBoundaries(s[1..])
  }

  function Concat(lines: seq<string>): string {
    if lines == [] then [] else lines[0] + Concat(lines[1..])
  }

  lemma {:induction false} DropBoundariesAppend(a: string, b: string)
    ensures DropBoundaries(a + b) == DropBoundaries(a) + DropBoundaries(b)
    decreases |a|
  {
    if a == [] {
      assert a + b == b;
    } else {
      assert (a + b)[1..] == a[1..] + b;
      DropBoundariesAppend(a[1..], b);
    }
  }

  lemma {:induction false} DropBoundariesOneLine(s: string)
    requires IsOneLine(s)
    ensures DropBoundaries(s) == s
    decreases |s|
  {
    if s != [] {
      DropBoundariesOneLine(s[1..]);
    }
  }

  lemma ConcatCons(line: string, lines: seq<string>)
    ensures Concat([line] + lines) == line + Concat(lines)
  {
    assert ([line] + lines)[1..] == lines;
  }

  /** Dropping boundaries around a piece that consists of boundaries only. */
  lemma DropBoundariesAround(pre: string, brk: string, post: string)
    requires DropBoundaries(brk) == []
    ensures DropBoundaries(pre + (brk + post)) == DropBoundaries(pre) + DropBoundaries(post)
  {
    DropBoundariesAppend(pre, brk + post);
    DropBoundariesAppend(brk, post);
  }

  /** A line break of one or two boundary characters vanishes entirely. */
  lemma BreakVanishes(s: string, n: nat)
    requires n < |s| && IsLineBoundary(s[n])
    ensures DropBoundaries(s[n..n + BreakWidth(s, n)]) == []
  {
    var brk := s[n..n + BreakWidth(s, n)];
    assert brk[0] == s[n];
    if |brk| == 2 {
      var tail := brk[1..];
      assert tail[0] == '\n' && tail[1..] == [];
      assert IsLineBoundary(tail[0]);
      assert DropBoundaries(tail) == [];
    } else {
      assert brk[1..] == [];
    }
  }

  /** A sequence is the concatenation of its three slices around `i` and `j`. */
  lemma SliceThree<T>(s: seq<T>, i: nat, j: nat)
    requires i <= j <= |s|
    ensures s == s[..i] + (s[i..j] + s[j..])
  {
  }

  /** Dropping boundaries across the line break at `n`. */
  lemma DropBoundariesAtBreak(s: string, n: nat)
    requires n < |s| && IsLineBoundary(s[n])
    ensures DropBoundaries(s) == DropBoundaries(s[..n]) + DropBoundaries(s[n + BreakWidth(s, n)..])
  {
    var m := n + BreakWidth(s, n);
    BreakVanishes(s, n);
    SliceThree(s, n, m);
    DropBoundariesAround(s[..n], s[n..m], s[m..]);
  }

  /** One step of `SplitLines`: the first line, then the lines of what follows its break. */
  lemma ConcatSplitLinesStep(s: string, n: nat, rest: string)
    requires n == FirstBoundary(s) < |s| && rest == s[n + BreakWidth(s, n)..]
    ensures Concat(SplitLines(s)) == s[..n] + Concat(SplitLines(rest))
  {
    SplitLinesStep(s, n, BreakWidth(s, n), rest);
    ConcatCons(s[..n], SplitLines(rest));
  }

  /** Splitting into lines loses exactly the line boundaries: no other character is dropped or reordered. */
  lemma {:induction false} SplitLinesKeepsText(s: string)
    ensures Concat(SplitLines(s)) == DropBoundaries(s)
    decreases |s|
  {
    if s != [] {
      var n := FirstBoundary(s);
      if n == |s| {
        assert s[..n] == s;
        DropBoundariesOneLine(s);
        ConcatCons(s, []);
      } else {
        SplitLinesKeepsText(s[n + BreakWidth(s, n)..]);
        ConcatSplitLinesStep(s, n, s[n + BreakWidth(s, n)..]);
        DropBoundariesAtBreak(s, n);
        DropBoundariesOneLine(s[..n]);
      }
    }
  }
}

=== FILE: pystr.dfy ===
/**
 The Python `str` operations the transcript mapper relies on: `in`, `find`,
 `split(sep, 1)`, `split(sep)`, `strip()` and `replace`.
 Strings are sequences of Unicode scalar values.
 */
module PyStr {
  import opened Wrappers

  /** `p` occurs in `s` starting at index `k`. */
  predicate MatchAt(s: string, p: string, k: int) {
    0 <= k && k + |p| <= |s| && s[k..k + |p|] == p
  }

  function FindFrom(s: string, p: string, start: nat): (r: Option<nat>)
    requires start <= |s|
    ensures r.Some? ==> start <= r.value && MatchAt(s, p, r.value)
    ensures r.Some? ==> forall k :: start <= k < r.value ==> !MatchAt(s, p, k)
    ensures r.None? ==> forall k :: start <= k <= |s| ==> !MatchAt(s, p, k)
    decreases |s| - start
  {
    if MatchAt(s, p, start) then Some(start)
    else if start == |s| then None
    else FindFrom(s, p, start + 1)
  }

  /** `s.find(p)`: the lowest index at which `p` occurs in `s`, if any. */
  function Find(s: string, p: string): (r: Option<nat>)
    ensures r.Some? ==> MatchAt(s, p, r.value)
    ensures r.Some? ==> forall k :: 0 <= k < r.value ==> !MatchAt(s, p, k)
    ensures r.None? <==> forall k :: 0 <= k <= |s| ==> !MatchAt(s, p, k)
  {
    FindFrom(s, p, 0)
  }

  /** `p in s`. */
  predicate Contains(s: string, p: string) {
    Find(s, p).Some?
  }

  /** Any occurrence of `p` in `s` makes `p in s` true. */
  lemma ContainsFromMatch(s: string, p: string, k: int)
    requires MatchAt(s, p, k)
    ensures Contains(s, p)
    ensures Find(s, p).value <= k
  {
  }

  /** A pattern with a character that `s` lacks does not occur in `s`. */
  lemma NotContains(s: string, p: string, i: int)
    requires 0 <= i < |p| && p[i] !in s
    ensures !Contains(s, p)
  {
    forall k | 0 <= k <= |s| && k + |p| <= |s|
      ensures !MatchAt(s, p, k)
    {
      assert s[k..k + |p|][i] == s[k + i];
    }
  }

  /** An occurrence preceded by no copy of the pattern's first character is the first one. */
  lemma FindAt(s: string, p: string, k: int)
    requires p != [] && MatchAt(s, p, k) && p[0] !in s[..k]
    ensures Find(s, p) == Some(k)
  {
    ContainsFromMatch(s, p, k);
    forall j | 0 <= j < k && j + |p| <= |s|
      ensures !MatchAt(s, p, j)
    {
      assert s[j..j + |p|][0] == s[j] == s[..k][j];
    }
  }

  /** A one-character pattern matches exactly where that character sits. */
  lemma MatchAtChar(s: string, c: char, k: int)
    ensures MatchAt(s, [c], k) <==> 0 <= k < |s| && s[k] == c
  {
    if 0 <= k < |s| {
      assert s[k..k + 1] == [s[k]];
    }
  }

  /** For a one-character pattern, `c in s` is plain membership. */
  lemma ContainsChar(s: string, c: char)
    ensures Contains(s, [c]) <==> c in s
  {
    if c in s {
      var k :| 0 <= k < |s| && s[k] == c;
      MatchAtChar(s, c, k);
      ContainsFromMatch(s, [c], k);
    } else if Contains(s, [c]) {
      MatchAtChar(s, c, Find(s, [c]).value);
    }
  }

  /** `find` of one character returns the first position holding it. */
  lemma FindChar(s: string, c: char)
    requires c in s
    ensures Find(s, [c]).Some?
    ensures Find(s, [c]).value < |s| && s[Find(s, [c]).value] == c
    ensures c !in s[..Find(s, [c]).value]
  {
    ContainsChar(s, c);
    var i := Find(s, [c]).value;
    MatchAtChar(s, c, i);
    forall k | 0 <= k < i
      ensures s[k] != c
    {
      MatchAtChar(s, c, k);
    }
  }

  /** A character that appears after a prefix free of it is found right there. */
  lemma FindCharAfter(a: string, c: char, b: string)
    requires c !in a
    ensures Find(a + [c] + b, [c]) == Some(|a|)
  {
    var s := a + [c] + b;
    assert s[|a|] == c;
    MatchAtChar(s, c, |a|);
    ContainsFromMatch(s, [c], |a|);
    var i := Find(s, [c]).value;
    MatchAtChar(s, c, i);
  }

  /** An occurrence inside a substring is an occurrence in the whole string. */
  lemma MatchAtCompose(s: string, x: string, o: int, p: string, a: int)
    requires MatchAt(s, x, o)
    requires MatchAt(x, p, a)
    ensures MatchAt(s, p, o + a)
  {
    forall j | 0 <= j < |p|
      ensures s[o + a + j] == p[j]
    {
      assert s[o..o + |x|][a + j] == s[o + a + j];
      assert x[a..a + |p|][j] == x[a + j];
    }
    assert s[o + a..o + a + |p|] == p;
  }

  /** Whatever occurs in a piece of `s` occurs in `s`. */
  lemma ContainsInPiece(s: string, x: string, o: int, p: string)
    requires MatchAt(s, x, o)
    requires Contains(x, p)
    ensures Contains(s, p)
  {
    var a := Find(x, p).value;
    MatchAtCompose(s, x, o, p, a);
    ContainsFromMatch(s, p, o + a);
  }

  /** `s.split(sep, 1)`: one cut at the first occurrence of `sep`, or the whole string. */
  function SplitOnce(s: string, sep: string): (r: seq<string>)
    requires sep != []
    ensures |r| == 1 || |r| == 2
    ensures |r| == 2 <==> Contains(s, sep)
    ensures |r| == 1 ==> r[0] == s
    ensures |r| == 2 ==> s == r[0] + sep + r[1]
    ensures |r| == 2 ==> MatchAt(s, sep, |r[0]|)
    ensures forall k :: 0 <= k < |r[0]| ==> !MatchAt(s, sep, k)
    ensures !Contains(r[0], sep)
  {
    match Find(s, sep)
    case None => [s]
    case Some(i) =>
      assert s == s[..i] + sep + s[i + |sep|..];
      NoMatchInPrefix(s, sep, i);
      [s[..i], s[i + |sep|..]]
  }

  /** Cutting at a character that `a` lacks gives `a` and what follows the character. */
  lemma SplitOnceAtChar(a: string, c: char, b: string)
    requires c !in a
    ensures SplitOnce(a + [c] + b, [c]) == [a, b]
  {
    FindCharAfter(a, c, b);
    var s := a + [c] + b;
    assert s[..|a|] == a;
    assert s[|a| + 1..] == b;
  }

  /**
   `j` is where the piece of `s` that starts at `from` ends: the first index at or
   after `from` where `p` occurs, or the end of `s` when `p` does not occur again.
   */
  predicate NextMatchOrEnd(s: string, p: string, from: int, j: int) {
    && 0 <= from <= j <= |s|
    && (j == |s| || MatchAt(s, p, j))
    && NoMatchBetween(s, p, from, j)
  }

  /** `p` occurs nowhere in `s` at an index from `lo` up to but excluding `hi`. */
  predicate NoMatchBetween(s: string, p: string, lo: int, hi: int) {
    forall m :: lo <= m < hi ==> !MatchAt(s, p, m)
  }

  /**
   The end of the piece of `s` that starts at `from`, computed by scanning:
   the next occurrence of `p` at or after `from`, or the end of `s`.
   */
  function NextOrEnd(s: string, p: string, from: nat): (j: nat)
    requires from <= |s|
    ensures NextMatchOrEnd(s, p, from, j)
  {
    match FindFrom(s, p, from)
    case Some(k) => k
    case None => |s|
  }

  /** A piece has only one end: any end that `NextMatchOrEnd` admits is the one the scan finds. */
  lemma NextOrEndIs(s: string, p: string, from: nat, j: int)
    requires from <= |s| && NextMatchOrEnd(s, p, from, j)
    ensures NextOrEnd(s, p, from) == j
  {
  }

  /** A piece that runs from `from` to the next occurrence of `p` (or the end) is `s[from..NextOrEnd(s, p, from)]`. */
  lemma PieceToNext(s: string, p: string, from: nat, piece: string)
    requires from <= |s| && NextMatchOrEnd(s, p, from, from + |piece|) && piece == s[from..from + |piece|]
    ensures piece == s[from..NextOrEnd(s, p, from)]
  {
    NextOrEndIs(s, p, from, from + |piece|);
  }

  /** Occurrences in a suffix are occurrences in the whole string, shifted. */
  lemma MatchAtShift(s: string, from: int, p: string, m: int)
    requires 0 <= from <= |s|
    ensures MatchAt(s[from..], p, m) <==> m >= 0 && MatchAt(s, p, from + m)
  {
    if m >= 0 && from + m + |p| <= |s| {
      assert s[from..][m..m + |p|] == s[from + m..from + m + |p|];
    }
  }

  /** The first piece of `s[from..].split(sep, 1)` is the text of `s` from `from` on. */
  lemma SplitOncePieceInPlace(s: string, sep: string, from: int, piece: string)
    requires sep != [] && 0 <= from <= |s|
    requires piece == SplitOnce(s[from..], sep)[0]
    ensures from + |piece| <= |s| && piece == s[from..from + |piece|]
  {
    var rest := s[from..];
    var r := SplitOnce(rest, sep);
    if |r| == 2 {
      assert rest == piece + (sep + r[1]);
      assert piece == rest[..|piece|];
    }
    assert rest[..|piece|] == s[from..from + |piece|];
  }

  /** The first piece of `s[from..].split(sep, 1)` ends at the next occurrence of `sep`, or at the end. */
  lemma SplitOncePieceStops(s: string, sep: string, from: int, piece: string)
    requires sep != [] && 0 <= from <= |s|
    requires piece == SplitOnce(s[from..], sep)[0]
    ensures from + |piece| == |s| || MatchAt(s, sep, from + |piece|)
    ensures NoMatchBetween(s, sep, from, from + |piece|)
  {
    MatchAtShift(s, from, sep, |piece|);
    forall m | from <= m < from + |piece|
      ensures !MatchAt(s, sep, m)
    {
      MatchAtShift(s, from, sep, m - from);
    }
  }

  /** The first piece of `s[from..].split(sep, 1)` runs from `from` to the next occurrence of `sep`. */
  lemma SplitOnceFirstPiece(s: string, sep: string, from: int, piece: string)
    requires sep != [] && 0 <= from <= |s|
    requires piece == SplitOnce(s[from..], sep)[0]
    ensures NextMatchOrEnd(s, sep, from, from + |piece|) && piece == s[from..from + |piece|]
  {
    SplitOncePieceInPlace(s, sep, from, piece);
    SplitOncePieceStops(s, sep, from, piece);
  }

  /** `sep.join(parts)`. */
  function Join(parts: seq<string>, sep: string): string
    requires |parts| >= 1
  {
    if |parts| == 1 then parts[0] else parts[0] + sep + Join(parts[1..], sep)
  }

  /** `s.split(sep)` for a non-empty `sep`: cut at every non-overlapping occurrence, left to right. */
  function Split(s: string, sep: string): (r: seq<string>)
    requires sep != []
    ensures |r| >= 1
    ensures |r| >= 2 <==> Contains(s, sep)
    ensures r[0] == SplitOnce(s, sep)[0]
    decreases |s|
  {
    match Find(s, sep)
    case None => [s]
    case Some(i) => [s[..i]] + Split(s[i + |sep|..], sep)
  }

  /** Joining the pieces with `sep` gives back the original string. */
  lemma {:induction false} SplitJoin(s: string, sep: string)
    requires sep != []
    ensures Join(Split(s, sep), sep) == s
    decreases |s|
  {
    match Find(s, sep)
    case None =>
    case Some(i) =>
      var rest := s[i + |sep|..];
      SplitJoin(rest, sep);
      assert (Split(s, sep))[1..] == Split(rest, sep);
      assert s == s[..i] + sep + rest;
  }

  /** The `k`-th piece of the split does not contain `sep`. */
  lemma {:induction false} SplitPieceFree(s: string, sep: string, k: int)
    requires sep != [] && 0 <= k < |Split(s, sep)|
    ensures !Contains(Split(s, sep)[k], sep)
    decreases |s|
  {
    if k > 0 {
      var i := Find(s, sep).value;
      var rest := s[i + |sep|..];
      assert Split(s, sep) == [s[..i]] + Split(rest, sep);
      SplitPieceFree(rest, sep, k - 1);
    }
  }

  /** No piece of the split contains `sep`. */
  lemma SplitPiecesFree(s: string, sep: string)
    requires sep != []
    ensures forall k :: 0 <= k < |Split(s, sep)| ==> !Contains(Split(s, sep)[k], sep)
  {
    forall k | 0 <= k < |Split(s, sep)| {
      SplitPieceFree(s, sep, k);
    }
  }

  /** The part before the first occurrence of `sep` does not contain `sep`. */
  lemma NoMatchInPrefix(s: string, sep: string, i: nat)
    requires sep != [] && i <= |s|
    requires forall k :: 0 <= k < i ==> !MatchAt(s, sep, k)
    ensures !Contains(s[..i], sep)
  {
    forall k | 0 <= k <= i && k + |sep| <= i
      ensures !MatchAt(s[..i], sep, k)
    {
      assert !MatchAt(s, sep, k);
      assert s[..i][k..k + |sep|] == s[k..k + |sep|];
    }
  }

  /** The second piece of `s.split(sep)` runs from the first occurrence to the next one. */
  lemma SplitSecond(s: string, sep: string)
    requires sep != []
    requires Contains(s, sep)
    ensures |Split(s, sep)| >= 2
    ensures Split(s, sep)[1] == SplitOnce(s[Find(s, sep).value + |sep|..], sep)[0]
  {
  }

  /**
   `s.split(sep)[1]`, absent when `sep` does not occur (Python raises an
   `IndexError` there): what follows the first `sep`, cut once more at `sep`.
   */
  function SecondPiece(s: string, sep: string): (r: Option<string>)
    requires sep != []
    ensures r.Some? <==> Contains(s, sep)
  {
    var halves := SplitOnce(s, sep);
    if |halves| == 1 then None else Some(SplitOnce(halves[1], sep)[0])
  }

  /**
   The second piece of the split as a span of `s`: it starts at `from`, just after
   the first `sep`, and runs to the next occurrence of `sep` or to the end of `s`.
   */
  lemma SecondPieceSpan(s: string, sep: string, from: int, piece: string)
    requires sep != [] && from == |SplitOnce(s, sep)[0]| + |sep| && SecondPiece(s, sep) == Some(piece)
    ensures NextMatchOrEnd(s, sep, from, from + |piece|) && piece == s[from..from + |piece|]
  {
    var halves := SplitOnce(s, sep);
    assert halves[1] == s[from..] by {
      assert s == halves[0] + sep + halves[1];
    }
    SplitOnceFirstPiece(s, sep, from, piece);
  }

  /** `SecondPiece` is the second element of the full split. */
  lemma SecondPieceOfSplit(s: string, sep: string)
    requires sep != []
    ensures SecondPiece(s, sep) == if |Split(s, sep)| >= 2 then Some(Split(s, sep)[1]) else None
  {
    if Contains(s, sep) {
      SplitSecond(s, sep);
    }
  }

  /** In `a c mid c b` with no `c` in `a` or `mid`, the second piece of the split on `c` is `mid`. */
  lemma SplitSecondBetween(a: string, c: char, mid: string, b: string)
    requires c !in a && c !in mid
    ensures |Split(a + [c] + mid + [c] + b, [c])| >= 2
    ensures Split(a + [c] + mid + [c] + b, [c])[1] == mid
  {
    var s := a + [c] + mid + [c] + b;
    var rest := mid + [c] + b;
    assert s == a + [c] + rest;
    FindCharAfter(a, c, rest);
    assert Contains(s, [c]);
    SplitSecond(s, [c]);
    assert s[|a| + 1..] == rest;
    FindCharAfter(mid, c, b);
    assert rest[..|mid|] == mid;
  }

  /** `str.isspace()` on one character: the characters `strip()` removes. */
  predicate IsSpace(c: char) {
    || c == ' ' || c == '\t' || c == '\n' || c == '\r'
    || c == '\U{0B}' || c == '\U{0C}'
    || c == '\U{1C}' || c == '\U{1D}' || c == '\U{1E}' || c == '\U{1F}'
    || c == '\U{85}' || c == '\U{A0}' || c == '\U{1680}'
    || ('\U{2000}' <= c <= '\U{200A}')
    || c == '\U{2028}' || c == '\U{2029}' || c == '\U{202F}' || c == '\U{205F}' || c == '\U{3000}'
  }

  /** Number of leading whitespace characters. */
  function LeadingSpace(s: string): (n: nat)
    ensures n <= |s|
    ensures forall k :: 0 <= k < n ==> IsSpace(s[k])
    ensures n < |s| ==> !IsSpace(s[n])
  {
    if |s| > 0 && IsSpace(s[0]) then 1 + LeadingSpace(s[1..]) else 0
  }

  /** Length of `s` once trailing whitespace is cut. */
  function TrimmedEnd(s: string): (n: nat)
    ensures n <= |s|
    ensures forall k :: n <= k < |s| ==> IsSpace(s[k])
    ensures n > 0 ==> !IsSpace(s[n - 1])
  {
    if |s| > 0 && IsSpace(s[|s| - 1]) then TrimmedEnd(s[..|s| - 1]) else |s|
  }

  /** Index in `s` at which `s.strip()` begins. */
  function StripOffset(s: string): (o: nat)
    ensures o <= TrimmedEnd(s)
  {
    LeadingSpace(s[..TrimmedEnd(s)])
  }

  /** `s.strip()`: `s` without leading and trailing whitespace. */
  function Strip(s: string): (r: string)
    ensures MatchAt(s, r, StripOffset(s))
    ensures forall k :: 0 <= k < StripOffset(s) ==> IsSpace(s[k])
    ensures forall k :: StripOffset(s) + |r| <= k < |s| ==> IsSpace(s[k])
    ensures r == [] || (!IsSpace(r[0]) && !IsSpace(r[|r| - 1]))
  {
    var e := TrimmedEnd(s);
    var b := LeadingSpace(s[..e]);
    assert s[b..e] == s[..e][b..];
    s[b..e]
  }

  /** Stripping keeps a middle part: if `x` occurs in `s`, so does `strip(x)`. */
  lemma StripOccurs(s: string, x: string, o: int)
    requires MatchAt(s, x, o)
    ensures Contains(s, Strip(x))
  {
    MatchAtCompose(s, x, o, Strip(x), StripOffset(x));
    ContainsFromMatch(s, Strip(x), o + StripOffset(x));
  }

  /** Stripping only removes text: what does not occur in `s` does not occur in `strip(s)`. */
  lemma StripKeepsAbsence(s: string, p: string)
    requires !Contains(s, p)
    ensures !Contains(Strip(s), p)
  {
    if Contains(Strip(s), p) {
      ContainsInPiece(s, Strip(s), StripOffset(s), p);
    }
  }

  /** `strip()` cuts exactly the whitespace around the span `s[lo..hi]` whose ends are not whitespace. */
  lemma StripSpan(s: string, lo: int, hi: int)
    requires 0 <= lo <= hi <= |s|
    requires forall k :: 0 <= k < lo ==> IsSpace(s[k])
    requires forall k :: hi <= k < |s| ==> IsSpace(s[k])
    requires lo < hi ==> !IsSpace(s[lo]) && !IsSpace(s[hi - 1])
    ensures Strip(s) == s[lo..hi]
  {
    var r := Strip(s);
    var o := StripOffset(s);
    if lo < hi {
      assert o <= lo;
      assert r[0] == s[o];
      assert o == lo;
      assert r[|r| - 1] == s[o + |r| - 1];
      assert o + |r| == hi;
    }
  }

  /** `s.replace(c, "")` for one character `c`: every `c` removed. */
  function RemoveAll(s: string, c: char): (r: string)
    ensures c !in r
    ensures c !in s ==> r == s
  {
    if s == [] then []
    else
      assert s == [s[0]] + s[1..];
      if s[0] == c then RemoveAll(s[1..], c) else [s[0]] + RemoveAll(s[1..], c)
  }
  /** `replace(c, "")` removes every `c` and keeps every other character as often as it occurs. */
  lemma {:induction false} RemoveAllCount(s: string, c: char)
    ensures multiset(RemoveAll(s, c)) == multiset(s)[c := 0]
  {
    if s != [] {
      RemoveAllCount(s[1..], c);
      assert s == [s[0]] + s[1..];
      assert multiset(s) == multiset{s[0]} + multiset(s[1..]);
    }
  }

  /** Removing a character works piece by piece over a concatenation. */
  lemma {:induction false} RemoveAllAppend(a: string, b: string, c: char)
    ensures RemoveAll(a + b, c) == RemoveAll(a, c) + RemoveAll(b, c)
    decreases |a|
  {
    if a != [] {
      var s := a + b;
      assert s[0] == a[0] && s[1..] == a[1..] + b;
      RemoveAllAppend(a[1..], b, c);
      if a[0] == c {
        assert RemoveAll(s, c) == RemoveAll(s[1..], c);
        assert RemoveAll(a, c) == RemoveAll(a[1..], c);
      } else {
        assert RemoveAll(s, c) == [a[0]] + RemoveAll(s[1..], c);
        assert RemoveAll(a, c) == [a[0]] + RemoveAll(a[1..], c);
      }
    } else {
      assert a + b == b;
    }
  }


  /** `s.replace(c, "", 1)` for one character `c`: its first occurrence removed. */
  function ReplaceFirst(s: string, c: char): (r: string)
    ensures c !in s ==> r == s
    ensures c in s ==> |r| == |s| - 1 && multiset(r) == multiset(s) - multiset{c}
    ensures c in s ==> exists i :: 0 <= i < |s| && s[i] == c && c !in s[..i] && r == s[..i] + s[i + 1..]
  {
    if c in s then
      FindChar(s, c);
      var i := Find(s, [c]).value;
      assert s == s[..i] + [s[i]] + s[i + 1..];
      s[..i] + s[i + 1..]
    else
      ContainsChar(s, c);
      s
  }
}

=== FILE: render.dfy ===
/**
 The HTML rendering of a mapped transcript (`Attachment.attachment_as_href`,
 `ChatEntry.chat_as_html` and `data_to_html` in src/whatsmapper/whatsmap.py):
 one snippet per entry, in transcript order.
 */
module Render {
  import opened Wrappers
  import opened PyStr
  import opened Transcript

  /** The inline video icon, a PNG data URL; its content plays no part in the rendering logic. */
  const VideoImage: string

  /** The inline generic-file icon, a PNG data URL. */
  const FileImage: string

  const Indent: string := "      "

  /** A link to `path` shown as `icon`. */
  function IconLink(path: string, icon: string): string {
    Indent + "<a href='" + path + "'><img src='" + icon + "' /></a>\n"
  }

  /** The image at `path`, shown inline. */
  function InlineImage(path: string): string {
    Indent + "<img src='" + path + "' />\n"
  }

  /** A link and an inline image never render alike: they differ at index 7, just after the tag's opening `<`. */
  lemma LinkIsNotImage(path: string, icon: string, path': string)
    ensures IconLink(path, icon) != InlineImage(path')
  {
    assert IconLink(path, icon)[7] == 'a';
    assert InlineImage(path')[7] == 'i';
  }

  /**
   `attachment_as_href`: an `mp4` becomes a link shown as the video icon, a `jpg`
   or `png` is shown inline, and every other extension, the empty one included,
   becomes a link shown as the generic file icon.
   */
  function AttachmentAsHref(path: string, extension: string): (html: string)
    ensures (extension == "jpg" || extension == "png") <==> html == InlineImage(path)
    ensures extension == "mp4" ==> html == IconLink(path, VideoImage)
    ensures extension != "mp4" && extension != "jpg" && extension != "png" ==> html == IconLink(path, FileImage)
  {
    LinkIsNotImage(path, VideoImage, path);
    LinkIsNotImage(path, FileImage, path);
    if extension == "mp4" then IconLink(path, VideoImage)
    else if extension == "jpg" || extension == "png" then InlineImage(path)
    else IconLink(path, FileImage)
  }

  /** The text between the first two single quotes of an HTML snippet: the attribute it points at. */
  function QuotedTarget(html: string): Option<string> {
    var parts := Split(html, "'");
    if |parts| >= 2 then Some(parts[1]) else None
  }

  /** Every attachment snippet points at the attachment's path, as long as the path holds no single quote. */
  lemma AttachmentTargetsPath(path: string, extension: string)
    requires !Contains(path, "'")
    ensures QuotedTarget(AttachmentAsHref(path, extension)) == Some(path)
  {
    ContainsChar(path, '\'');
    if extension == "jpg" || extension == "png" {
      ImageTargetsPath(path);
    } else {
      LinkTargetsPath(path, if extension == "mp4" then VideoImage else FileImage);
    }
  }

  /** An inline image's first quoted attribute is its path. */
  lemma ImageTargetsPath(path: string)
    requires '\'' !in path
    ensures QuotedTarget(InlineImage(path)) == Some(path)
  {
    var a, b := Indent + "<img src=", " />\n";
    assert Indent + "<img src='" == a + ['\''];
    assert "' />\n" == ['\''] + b;
    assert InlineImage(path) == a + ['\''] + path + ['\''] + b;
    SplitSecondBetween(a, '\'', path, b);
  }

  /** An icon link's first quoted attribute is its path. */
  lemma LinkTargetsPath(path: string, icon: string)
    requires '\'' !in path
    ensures QuotedTarget(IconLink(path, icon)) == Some(path)
  {
    var a, b := Indent + "<a href=", "><img src='" + icon + "' /></a>\n";
    assert Indent + "<a href='" == a + ['\''];
    assert "'><img src='" + icon + "' /></a>\n" == ['\''] + b;
    assert IconLink(path, icon) == a + ['\''] + path + ['\''] + b;
    SplitSecondBetween(a, '\'', path, b);
  }

  /** `chat_as_html`: date and sender in one paragraph, the text in the next, inside a `div`. */
  function ChatAsHtml(date: string, individual: string, text: string): (html: string)
    ensures IsChatSnippet(html)
  {
    var html := Indent + "<div><p>" + date + ": " + individual + "</p>\n<p>" + text + "</p></div>\n";
    assert html[6..11] == "<div>";
    html
  }

  /**
   Where the parts of a chat snippet lie, counted from its end: the text sits
   just before the closing `</p></div>`, after a `\n<p>`, and the heading
   `date: sender` sits between the opening `<div><p>` and the `</p>` before that.
   */
  lemma ChatSnippetLayout(date: string, individual: string, text: string, html: string, e: int)
    requires '\n' !in text
    requires html == ChatAsHtml(date, individual, text) && e == |html| - 11
    ensures 14 <= e - |text| - 8 && e <= |html|
    ensures html[e - |text|..e] == text
    ensures html[e - |text| - 4] == '\n'
    ensures forall k :: e - |text| - 3 <= k < e ==> html[k] != '\n'
    ensures html[14..e - |text| - 8] == date + ": " + individual
  {
    var head := date + ": " + individual;
    var pre := Indent + "<div><p>" + head + "</p>\n<p>";
    assert html == pre + text + "</p></div>\n";
    assert |pre| == e - |text|;
    assert html[..e] == pre + text;
    forall k | e - |text| - 3 <= k < e
      ensures html[k] != '\n'
    {
      if k >= e - |text| {
        assert html[k] == text[k - (e - |text|)];
      } else {
        assert html[k] == pre[k];
      }
    }
    assert html[e - |text| - 4] == pre[|pre| - 4];
    assert html[14..e - |text| - 8] == pre[14..|pre| - 8];
  }

  /**
   A chat snippet can be read back: two snippets that agree carry the same text
   and the same `date: sender` heading, for texts without a line break, as
   every text cut from one line of the transcript is.
   */
  lemma ChatAsHtmlReadBack(date: string, individual: string, text: string,
                           date': string, individual': string, text': string)
    requires '\n' !in text && '\n' !in text'
    requires ChatAsHtml(date, individual, text) == ChatAsHtml(date', individual', text')
    ensures text == text'
    ensures date + ": " + individual == date' + ": " + individual'
  {
    var html := ChatAsHtml(date, individual, text);
    var e := |html| - 11;
    ChatSnippetLayout(date, individual, text, html, e);
    ChatSnippetLayout(date', individual', text', html, e);
  }

  /** The snippet for one entry, chosen by its kind; a snippet shows which kind of entry it renders. */
  function EntryAsHtml(e: Entry): (html: string)
    ensures IsChatSnippet(html) <==> e.Chat?
  {
    match e
    case Attachment(path, extension) =>
      var html := AttachmentAsHref(path, extension);
      assert html[7] == 'a' || html[7] == 'i';
      assert |html| >= 11 ==> html[6..11][1] == html[7];
      html
    case Chat(date, individual, text) => ChatAsHtml(date, individual, text)
  }

  /** A snippet opens a message `div` right after the indent. */
  predicate IsChatSnippet(html: string) {
    |html| >= 11 && html[6..11] == "<div>"
  }

  /** The texts `f` gives for the items of `t`, one after another. */
  function ConcatMap<T>(f: T -> string, t: seq<T>): string {
    if t == [] then [] else ConcatMap(f, t[..|t| - 1]) + f(t[|t| - 1])
  }

  /** Concatenating over two parts gives the two concatenations one after the other. */
  lemma {:induction false} ConcatMapAppend<T>(f: T -> string, a: seq<T>, b: seq<T>)
    ensures ConcatMap(f, a + b) == ConcatMap(f, a) + ConcatMap(f, b)
    decreases |b|
  {
    if b == [] {
      assert a + b == a;
    } else {
      var b' := b[..|b| - 1];
      assert (a + b)[..|a + b| - 1] == a + b';
      assert (a + b)[|a + b| - 1] == b[|b| - 1];
      ConcatMapAppend(f, a, b');
    }
  }

  /** Reference definition: the snippets of all entries, in order. */
  function RenderEntries(t: seq<Entry>): string {
    ConcatMap(EntryAsHtml, t)
  }

  /** Rendering a transcript in two parts gives the two renderings one after the other. */
  lemma RenderAppend(a: seq<Entry>, b: seq<Entry>)
    ensures RenderEntries(a + b) == RenderEntries(a) + RenderEntries(b)
  {
    ConcatMapAppend(EntryAsHtml, a, b);
  }

  /** `data_to_html`: the loop appending each entry's snippet in transcript order. */
  method DataToHtml(d: TranscriptData) returns (output: string)
    ensures output == RenderEntries(d.transcript)
  {
    output := "";
    var i := 0;
    while i < |d.transcript|
      invariant 0 <= i <= |d.transcript|
      invariant output == RenderEntries(d.transcript[..i])
    {
      assert d.transcript[..i + 1][..i] == d.transcript[..i];
      var chat := d.transcript[i];
      if chat.Attachment? {
        output := output + AttachmentAsHref(chat.filePath, chat.extension);
      } else {
        output := output + ChatAsHtml(chat.chatDate, chat.individual, chat.text);
      }
      i := i + 1;
    }
    assert d.transcript[..i] == d.transcript;
  }
}

=== FILE: scenarios.dfy ===
/**
 Worked lines: concrete transcript lines and what the mapper makes of them,
 showing the quirks of `whatsmap_to_data` on specific inputs.
 */
module Scenarios {
  import opened Wrappers
  import opened PyStr
  import opened Transcript
  import opened Lines

  /** A chat line whose sender name appears again inside the message. */
  const Line := "[1] A: x A y"

  lemma PlainLine()
    ensures !Contains(Line, AttachedMarker) && !Contains(Line, HttpLink)
  {
    assert '<' !in Line;
    NotContains(Line, AttachedMarker, 0);
    assert 'h' !in Line;
    NotContains(Line, HttpLink, 0);
  }

  lemma StripA()
    ensures Strip(" A") == "A"
  {
    StripSpan(" A", 1, 2);
  }

  lemma StripX()
    ensures Strip(" x ") == "x"
  {
    StripSpan(" x ", 1, 2);
  }

  lemma DateAndSender()
    ensures ChatDate(Line) == "[1]"
    ensures Individual(Line) == Some("A")
  {
    assert Line == "[1" + "]" + " A: x A y";
    SplitOnceAtChar("[1", ']', " A: x A y");
    assert " A: x A y" == " A" + ":" + " x A y";
    SplitOnceAtChar(" A", ':', " x A y");
    StripA();
  }

  lemma SecondSegment()
    ensures SecondPiece(Line, "A") == Some(": x ")
  {
    assert Line == "[1] " + "A" + ": x " + "A" + " y";
    SplitSecondBetween("[1] ", 'A', ": x ", " y");
    SecondPieceOfSplit(Line, "A");
  }

  lemma DropColon()
    ensures ReplaceFirst(": x ", ':') == " x "
  {
    FindAt(": x ", ":", 0);
  }

  lemma TextIsTruncated()
    ensures ChatText(Line, "A") == Some("x")
  {
    SecondSegment();
    DropColon();
    StripX();
  }

  /** The message stops where the sender's name occurs again: " A y" is dropped. */
  lemma RepeatedSenderTruncates(folder: Folder)
    ensures ClassifyLine(Line, folder) == ChatLine("[1]", "A", "x")
  {
    PlainLine();
    DateAndSender();
    TextIsTruncated();
  }

  /** A chat line whose sender's name first occurs inside the date. */
  const DateLine := "[1] 1: hi"

  lemma DateLineIsChat()
    ensures !Contains(DateLine, AttachedMarker) && !Contains(DateLine, HttpLink)
  {
    assert '<' !in DateLine;
    NotContains(DateLine, AttachedMarker, 0);
    assert 't' !in DateLine;
    NotContains(DateLine, HttpLink, 1);
  }

  lemma StripOne()
    ensures Strip(" 1") == "1"
  {
    StripSpan(" 1", 1, 2);
  }

  lemma DateLineSender()
    ensures ChatDate(DateLine) == "[1]"
    ensures Individual(DateLine) == Some("1")
  {
    assert DateLine == "[1" + "]" + " 1: hi";
    SplitOnceAtChar("[1", ']', " 1: hi");
    assert " 1: hi" == " 1" + ":" + " hi";
    SplitOnceAtChar(" 1", ':', " hi");
    StripOne();
  }

  lemma DateSecondSegment()
    ensures SecondPiece(DateLine, "1") == Some("] ")
  {
    assert DateLine == "[" + ['1'] + "] " + ['1'] + ": hi";
    SplitSecondBetween("[", '1', "] ", ": hi");
    SecondPieceOfSplit(DateLine, "1");
  }

  lemma KeepBracket()
    ensures Strip(ReplaceFirst("] ", ':')) == "]"
  {
    assert ':' !in "] ";
    StripSpan("] ", 0, 1);
  }

  lemma DateLineText()
    ensures ChatText(DateLine, "1") == Some("]")
  {
    DateSecondSegment();
    KeepBracket();
  }

  /**
   The text is cut from the sender's first occurrence, which here lies inside
   the date: the message becomes `]` and `hi` is lost.
   */
  lemma SenderInDateGarblesText(folder: Folder)
    ensures ClassifyLine(DateLine, folder) == ChatLine("[1]", "1", "]")
  {
    DateLineIsChat();
    DateLineSender();
    DateLineText();
  }

  /** An attachment line whose file name carries two dots. */
  const AttachmentLine := "<attached: a.b.c>"

  lemma MarkerAtStart()
    ensures Find(AttachmentLine, AttachedMarker) == Some(0)
  {
    assert AttachmentLine[..|AttachedMarker|] == AttachedMarker;
    FindAt(AttachmentLine, AttachedMarker, 0);
  }

  lemma StripName()
    ensures Strip(" a.b.c>") == "a.b.c>"
  {
    StripSpan(" a.b.c>", 1, 7);
  }

  lemma BracketAlone()
    ensures RemoveAll(">", '>') == []
  {
    assert ">"[1..] == [];
  }

  lemma DropBracket()
    ensures RemoveAll("a.b.c>", '>') == "a.b.c"
  {
    assert "a.b.c>" == "a.b.c" + ">";
    assert '>' !in "a.b.c";
    RemoveAllAppend("a.b.c", ">", '>');
    BracketAlone();
  }

  lemma FileName()
    ensures AttachmentFileName(AttachmentLine) == "a.b.c"
  {
    MarkerAtStart();
    assert AttachmentLine[|AttachedMarker|..] == " a.b.c>";
    StripName();
    DropBracket();
  }

  lemma MiddleExtension()
    ensures ExtensionOf("a.b.c") == Some("b")
  {
    assert "a.b.c" == "a" + ['.'] + "b" + ['.'] + "c";
    SplitSecondBetween("a", '.', "b", "c");
    SecondPieceOfSplit("a.b.c", ".");
  }

  /**
   The extension is the segment after the first dot, not the last one, and it
   is recorded whether or not the file exists.
   */
  lemma ExtensionIsSecondSegment(folder: Folder)
    ensures var o := ClassifyLine(AttachmentLine, folder);
      && (o.AttachmentFound? || o.AttachmentMissing?)
      && o.ext == Some("b")
      && RecordedExtension(o) == Some("b")
  {
    MarkerAtStart();
    ContainsFromMatch(AttachmentLine, AttachedMarker, 0);
    FileName();
    MiddleExtension();
  }

  /** A sender field of spaces only. */
  const BlankSenderLine := "[1] : x"

  lemma BlankSender()
    ensures Individual(BlankSenderLine) == Some([])
  {
    assert BlankSenderLine == "[1" + "]" + " : x";
    FindCharAfter("[1", ']', " : x");
    assert " : x" == " " + ":" + " x";
    FindCharAfter(" ", ':', " x");
    StripSpan(" ", 1, 1);
  }

  /** A blank sender is the error case: the mapping fails on it. */
  lemma BlankSenderFails(folder: Folder)
    ensures ClassifyLine(BlankSenderLine, folder) == EmptySender
  {
    assert '<' !in BlankSenderLine;
    NotContains(BlankSenderLine, AttachedMarker, 0);
    assert 'h' !in BlankSenderLine;
    NotContains(BlankSenderLine, HttpLink, 0);
    BlankSender();
  }

  /** `splitlines()` cuts `a\nb` at its break into `a` and `b`. */
  lemma TwoLines()
    ensures SplitLines("a\nb") == ["a", "b"]
  {
    var s := "a\nb";
    assert CutInto(s[2..], ["b"], []) by { assert s[2..] == "b"; }
    CutIntoCons(s, "a", "\n", ["b"], []);
    assert ["a"] + ["b"] == ["a", "b"];
    SplitLinesUnique(s, ["a", "b"], ["\n"]);
  }

  /** A link line whose sender field is blank. */
  const LinkLine := "[1] : http"

  /** The sender field of the link line is blank. */
  lemma LinkLineSender()
    ensures Individual(LinkLine) == Some([])
  {
    assert LinkLine == "[1" + "]" + " : http";
    FindCharAfter("[1", ']', " : http");
    assert " : http" == " " + ":" + " http";
    FindCharAfter(" ", ':', " http");
    StripSpan(" ", 1, 1);
  }

  /** A line ending in `http` holds a link. */
  lemma LinkAtEnd(a: string, line: string)
    requires line == a + HttpLink
    ensures Contains(line, HttpLink)
  {
    assert line[|a|..|a| + |HttpLink|] == HttpLink;
    ContainsFromMatch(line, HttpLink, |a|);
  }

  /** The link test comes first, so a blank sender on a link line raises nothing. */
  lemma BlankSenderLinkSkipped(folder: Folder)
    ensures ClassifyLine(LinkLine, folder) == LinkSkipped
    ensures FirstEmptySender([ClassifyLine(LinkLine, folder)]).None?
  {
    assert '<' !in LinkLine;
    NotContains(LinkLine, AttachedMarker, 0);
    LinkAtEnd("[1] : ", LinkLine);
  }
}

=== FILE: stats.dfy ===
/**
 The statistics block (`whatsapp_to_stats` in src/whatsmapper/whatsmap.py): how
 many attachments, senders, chat entries and file extensions a mapped
 transcript holds, rendered as an HTML list.
 */
module Stats {
  import opened Transcript

  /** The four numbers the statistics list shows. */
  datatype Counts = Counts(attachments: nat, individuals: nat, entries: nat, fileExtensions: nat)

  function CountAttachments(t: seq<Entry>): (n: nat)
    ensures n <= |t|
  {
    if t == [] then 0 else CountAttachments(t[..|t| - 1]) + (if t[|t| - 1].Attachment? then 1 else 0)
  }

  function CountChats(t: seq<Entry>): (n: nat)
    ensures n <= |t|
  {
    if t == [] then 0 else CountChats(t[..|t| - 1]) + (if t[|t| - 1].Chat? then 1 else 0)
  }

  /** Every entry is counted exactly once, as an attachment or as a chat. */
  lemma {:induction false} CountsPartition(t: seq<Entry>)
    ensures CountAttachments(t) + CountChats(t) == |t|
  {
    if t != [] {
      CountsPartition(t[..|t| - 1]);
    }
  }

  /**
   The counting loop of `whatsapp_to_stats`: attachments are counted, every
   other entry is a chat.
   */
  method CountEntries(t: seq<Entry>) returns (attachments: nat, chats: nat)
    ensures attachments == CountAttachments(t)
    ensures chats == CountChats(t)
    ensures attachments + chats == |t|
  {
    attachments, chats := 0, 0;
    var i := 0;
    while i < |t|
      invariant 0 <= i <= |t|
      invariant attachments == CountAttachments(t[..i])
      invariant chats == CountChats(t[..i])
      invariant attachments + chats == i
    {
      assert t[..i + 1][..i] == t[..i];
      if t[i].Attachment? {
        attachments := attachments + 1;
      } else {
        chats := chats + 1;
      }
      i := i + 1;
    }
    assert t[..i] == t;
  }

  /** Number of lines whose attachment file exists. */
  function CountFound(outcomes: seq<LineOutcome>): nat {
    if outcomes == [] then 0
    else CountFound(outcomes[..|outcomes| - 1]) + (if outcomes[|outcomes| - 1].AttachmentFound? then 1 else 0)
  }

  /** Number of lines that yield a chat entry. */
  function CountChatLines(outcomes: seq<LineOutcome>): nat {
    if outcomes == [] then 0
    else CountChatLines(outcomes[..|outcomes| - 1]) + (if outcomes[|outcomes| - 1].ChatLine? then 1 else 0)
  }

  lemma {:induction false} CountAppend(a: seq<Entry>, b: seq<Entry>)
    ensures CountAttachments(a + b) == CountAttachments(a) + CountAttachments(b)
    ensures CountChats(a + b) == CountChats(a) + CountChats(b)
    decreases |b|
  {
    if b == [] {
      assert a + b == a;
    } else {
      var b' := b[..|b| - 1];
      assert (a + b)[..|a + b| - 1] == a + b';
      CountAppend(a, b');
    }
  }

  /**
   On a mapped transcript the attachment count is the number of attachment lines
   whose file exists, and the entry count is the number of chat lines.
   */
  lemma {:induction false} CountsOfMappedLines(outcomes: seq<LineOutcome>)
    ensures CountAttachments(Entries(outcomes)) == CountFound(outcomes)
    ensures CountChats(Entries(outcomes)) == CountChatLines(outcomes)
  {
    if outcomes != [] {
      var init := outcomes[..|outcomes| - 1];
      CountsOfMappedLines(init);
      var last := LineEntries(outcomes[|outcomes| - 1]);
      CountAppend(Entries(init), last);
      if last != [] {
        assert last[..0] == [];
      }
    }
  }

  /** The decimal digit for `d`. */
  function DigitChar(d: nat): (c: char)
    requires d < 10
    ensures '0' <= c <= '9'
  {
    "0123456789"[d]
  }

  predicate IsDigits(s: string) {
    forall k :: 0 <= k < |s| ==> '0' <= s[k] <= '9'
  }

  /** Python's `str(n)` for a non-negative integer: its decimal digits, no leading zero. */
  function NatToString(n: nat): (s: string)
    ensures |s| >= 1 && IsDigits(s)
    ensures s[0] == '0' ==> n == 0 && |s| == 1
  {
    if n < 10 then [DigitChar(n)] else NatToString(n / 10) + [DigitChar(n % 10)]
  }

  /** Reads a string of decimal digits back as a number. */
  function ParseDecimal(s: string): nat
    requires IsDigits(s)
  {
    if s == [] then 0 else ParseDecimal(s[..|s| - 1]) * 10 + (s[|s| - 1] as int - '0' as int) as nat
  }

  /** The digits `str(n)` prints read back as `n`. */
  lemma {:induction false} ParseNatToString(n: nat)
    ensures ParseDecimal(NatToString(n)) == n
  {
    var s := NatToString(n);
    if n < 10 {
      assert "0123456789"[n] as int - '0' as int == n;
    } else {
      ParseNatToString(n / 10);
      assert s[..|s| - 1] == NatToString(n / 10);
      assert "0123456789"[n % 10] as int - '0' as int == n % 10;
    }
  }

  /** The text of a list item before its number: `   <li>caption: `. */
  function ItemHead(caption: string): string {
    "   <li>" + caption + ": "
  }

  /** One item of the list, followed by the rest of the list. */
  function Item(caption: string, n: nat, rest: string): string {
    ItemHead(caption) + (NatToString(n) + ("</li>\n" + rest))
  }

  /** `a` ends with `b`. */
  predicate EndsWith(a: string, b: string) {
    |a| >= |b| && a[|a| - |b|..] == b
  }

  /** Ending with `b`, which ends with `c`, a text ends with `c`. */
  lemma EndsWithTrans(a: string, b: string, c: string)
    requires EndsWith(a, b) && EndsWith(b, c)
    ensures EndsWith(a, c)
  {
    assert a[|a| - |c|..] == a[|a| - |b|..][|b| - |c|..];
  }

  /** The statistics list as `whatsapp_to_stats` formats it. */
  function CountsHtml(c: Counts): string {
    "<ul>\n" +
    Item("attachments", c.attachments,
      Item("individuals", c.individuals,
        Item("entries", c.entries,
          Item("file extensions", c.fileExtensions, "</ul>\n"))))
  }

  /** The list opens with `<ul>` and closes with `</ul>`, around its four items. */
  lemma CountsHtmlFramed(c: Counts)
    ensures var html := CountsHtml(c);
      |html| >= 11 && html[..5] == "<ul>\n" && html[|html| - 6..] == "</ul>\n"
  {
    var tail := "</ul>\n";
    assert EndsWith(tail, tail);
    ItemEndsWith("file extensions", c.fileExtensions, tail, tail);
    var r4 := Item("file extensions", c.fileExtensions, tail);
    ItemEndsWith("entries", c.entries, r4, tail);
    var r3 := Item("entries", c.entries, r4);
    ItemEndsWith("individuals", c.individuals, r3, tail);
    var r2 := Item("individuals", c.individuals, r3);
    ItemEndsWith("attachments", c.attachments, r2, tail);
    Framed(CountsHtml(c), Item("attachments", c.attachments, r2));
  }

  /** An item followed by a text ending in `tail` ends in `tail` too. */
  lemma ItemEndsWith(caption: string, n: nat, rest: string, tail: string)
    requires EndsWith(rest, tail)
    ensures EndsWith(Item(caption, n, rest), tail)
  {
    var r := Item(caption, n, rest);
    assert r[|r| - |rest|..] == rest;
    EndsWithTrans(r, rest, tail);
  }

  /** `<ul>\n` before a text ending in `</ul>\n` frames it. */
  lemma Framed(html: string, items: string)
    requires html == "<ul>\n" + items
    requires EndsWith(items, "</ul>\n")
    ensures |html| >= 11 && html[..5] == "<ul>\n" && html[|html| - 6..] == "</ul>\n"
  {
    assert html[|html| - |items|..] == items;
    EndsWithTrans(html, items, "</ul>\n");
  }

  /** `whatsapp_to_stats`: count the entries and format the four numbers. */
  method WhatsappToStats(d: TranscriptData) returns (html: string, counts: Counts)
    ensures counts.attachments + counts.entries == |d.transcript|
    ensures counts.attachments == CountAttachments(d.transcript)
    ensures counts.individuals == |d.individuals| && counts.fileExtensions == |d.extensions|
    ensures html == CountsHtml(counts)
  {
    var attachments, chats := CountEntries(d.transcript);
    counts := Counts(attachments, |d.individuals|, chats, |d.extensions|);
    html := CountsHtml(counts);
  }

  /** Digits followed by text that starts with `<` split in only one way. */
  lemma DigitsThenTag(x: string, y: string, x': string, y': string)
    requires IsDigits(x) && IsDigits(x')
    requires |y| > 0 && y[0] == '<' && |y'| > 0 && y'[0] == '<'
    requires x + y == x' + y'
    ensures x == x' && y == y'
  {
    assert x == (x + y)[..|x|];
    assert x' == (x' + y')[..|x'|];
    assert y == (x + y)[|x|..];
    assert y' == (x' + y')[|x'|..];
  }

  /** `str(n)` is injective. */
  lemma NatToStringInjective(n: nat, m: nat)
    requires NatToString(n) == NatToString(m)
    ensures n == m
  {
    ParseNatToString(n);
    ParseNatToString(m);
  }

  /** Two lists that begin with the same item caption and agree carry the same number there. */
  lemma ItemCancel(caption: string, n: nat, rest: string, m: nat, rest': string)
    requires Item(caption, n, rest) == Item(caption, m, rest')
    ensures n == m && rest == rest'
  {
    var pre := ItemHead(caption);
    var a := NatToString(n) + ("</li>\n" + rest);
    var b := NatToString(m) + ("</li>\n" + rest');
    assert a == (pre + a)[|pre|..];
    assert b == (pre + b)[|pre|..];
    DigitsThenTag(NatToString(n), "</li>\n" + rest, NatToString(m), "</li>\n" + rest');
    NatToStringInjective(n, m);
    assert rest == ("</li>\n" + rest)[6..];
    assert rest' == ("</li>\n" + rest')[6..];
  }

  /** The statistics list determines the four numbers: nothing is lost in formatting. */
  lemma CountsHtmlInjective(c: Counts, c': Counts)
    requires CountsHtml(c) == CountsHtml(c')
    ensures c == c'
  {
    var tail := "</ul>\n";
    var r4 := Item("file extensions", c.fileExtensions, tail);
    var r4' := Item("file extensions", c'.fileExtensions, tail);
    var r3 := Item("entries", c.entries, r4);
    var r3' := Item("entries", c'.entries, r4');
    var r2 := Item("individuals", c.individuals, r3);
    var r2' := Item("individuals", c'.individuals, r3');
    var r1 := Item("attachments", c.attachments, r2);
    var r1' := Item("attachments", c'.attachments, r2');
    assert r1 == CountsHtml(c)[5..];
    assert r1' == CountsHtml(c')[5..];
    ItemCancel("attachments", c.attachments, r2, c'.attachments, r2');
    ItemCancel("individuals", c.individuals, r3, c'.individuals, r3');
    ItemCancel("entries", c.entries, r4, c'.entries, r4');
    ItemCancel("file extensions", c.fileExtensions, tail, c'.fileExtensions, tail);
  }
}

=== FILE: transcript.dfy ===
/**
 The mapping from an exported chat transcript to a record of entries
 (`whatsmap_to_data` in src/whatsmapper/whatsmap.py). Each line is classified on
 its own: an attachment marker line, a line holding a link, or a chat line of the
 shape `[date] sender: text`. Lines of no recognised shape are skipped; a chat
 line whose sender is empty aborts the whole mapping.
 */
module Transcript {
  import opened Wrappers
  import opened PyStr
  import opened Lines

  /** One entry of the transcript: a chat message or an attachment whose file exists. */
  datatype Entry =
    | Chat(chatDate: string, individual: string, text: string)
    | Attachment(filePath: string, extension: string)

  /** The mapped transcript: entries in line order, the distinct senders and the distinct extensions. */
  datatype TranscriptData = TranscriptData(
    individuals: set<string>,
    transcript: seq<Entry>,
    extensions: set<string>)

  /**
   The transcript's folder as seen by the mapper: `resolve` joins a file name onto
   the folder's path, `present` says whether a path exists on disk.
   */
  datatype Folder = Folder(resolve: string -> string, present: string -> bool)

  /** Splitting a line on an empty sender raises an error nothing catches; `line` is its index. */
  datatype ParseError = EmptySeparator(line: nat)

  const AttachedMarker: string := "<attached:"
  const HttpLink: string := "http"
  const HttpsLink: string := "https"

  /** What one line contributes. */
  datatype LineOutcome =
    | AttachmentFound(path: string, ext: Option<string>)
    | AttachmentMissing(ext: Option<string>)
    | LinkSkipped
    | ChatLine(date: string, individual: string, text: string)
    | Unparsed
    | EmptySender

  /** The attachment's file name: what follows the first marker, stripped, with every `>` removed. */
  function AttachmentFileName(line: string): (name: string)
    requires Contains(line, AttachedMarker)
    ensures '>' !in name
  {
    RemoveAll(Strip(SplitOnce(line, AttachedMarker)[1]), '>')
  }

  /** The file name is read from the text that follows the first marker, `from` on. */
  lemma AttachmentFileNameSpan(line: string, from: nat)
    requires Contains(line, AttachedMarker)
    requires from == Find(line, AttachedMarker).value + |AttachedMarker|
    ensures from <= |line|
    ensures AttachmentFileName(line) == RemoveAll(Strip(line[from..]), '>')
  {
    var halves := SplitOnce(line, AttachedMarker);
    assert halves[1] == line[from..] by {
      assert line == halves[0] + AttachedMarker + halves[1];
    }
  }

  /**
   `name.split(".")[1]`: present exactly when `name` holds a dot, and then a
   dot-free piece of the name (the one after the first dot, see
   `PyStr.SecondPieceSpan`).
   */
  function ExtensionOf(name: string): (ext: Option<string>)
    ensures ext.Some? <==> Contains(name, ".")
    ensures ext.Some? ==> !Contains(ext.value, ".")
  {
    SecondPiece(name, ".")
  }

  /** `line.split(']', 1)[0] + "]"`: the line up to and including its first `]`, or the whole line and a `]`. */
  function ChatDate(line: string): (date: string)
    ensures Contains(line, "]") ==> |date| == Find(line, "]").value + 1 && MatchAt(line, date, 0)
    ensures !Contains(line, "]") ==> date == line + "]"
  {
    var halves := SplitOnce(line, "]");
    assert |halves| == 2 ==> line == halves[0] + "]" + halves[1] && line[..|halves[0]| + 1] == halves[0] + "]";
    halves[0] + "]"
  }

  /**
   `line.split("]", 1)[1].split(":", 1)[0].strip()`: absent (an index error) when
   the line has no `]`; otherwise the sender field, stripped. A present sender
   has no `:` and always occurs in the line.
   */
  function Individual(line: string): (who: Option<string>)
    ensures who.Some? <==> Contains(line, "]")
    ensures who.Some? ==> !Contains(who.value, ":") && Contains(line, who.value)
  {
    var halves := SplitOnce(line, "]");
    if |halves| < 2 then None
    else
      var field := SplitOnce(halves[1], ":")[0];
      SenderField(line, |halves[0]| + 1, field);
      StripOccurs(line, field, |halves[0]| + 1);
      StripKeepsAbsence(field, ":");
      Some(Strip(field))
  }

  /**
   The sender field as a span of the line: it starts at `from`, just after the
   first `]`, and runs to the next `:` or to the end of the line.
   */
  lemma SenderField(line: string, from: int, field: string)
    requires Contains(line, "]") && from == |SplitOnce(line, "]")[0]| + 1
    requires field == SplitOnce(SplitOnce(line, "]")[1], ":")[0]
    ensures NextMatchOrEnd(line, ":", from, from + |field|) && field == line[from..from + |field|]
  {
    var halves := SplitOnce(line, "]");
    assert halves[1] == line[from..] by {
      assert line == halves[0] + "]" + halves[1];
    }
    SplitOnceFirstPiece(line, ":", from, field);
  }

  /**
   The sender is the text between the first `]` and the next `:` (or the end of
   the line), stripped.
   */
  lemma IndividualSpan(line: string, from: int)
    requires Contains(line, "]") && from == |SplitOnce(line, "]")[0]| + 1
    ensures 0 <= from <= |line|
    ensures Individual(line) == Some(Strip(line[from..NextOrEnd(line, ":", from)]))
  {
    var field := SplitOnce(SplitOnce(line, "]")[1], ":")[0];
    SenderField(line, from, field);
    PieceToNext(line, ":", from, field);
  }

  /**
   `line.split(individual)[1].replace(":", "", 1).strip()`: absent (an index
   error) when the sender does not occur; otherwise the second piece of the
   split, with its first `:` removed and then stripped.
   */
  function ChatText(line: string, individual: string): (text: Option<string>)
    requires individual != []
    ensures text.Some? <==> Contains(line, individual)
  {
    match SecondPiece(line, individual)
    case None => None
    case Some(piece) => Some(Strip(ReplaceFirst(piece, ':')))
  }

  /**
   The chat text is taken from just after the sender's FIRST occurrence up to
   its NEXT occurrence (or the end of the line): a sender named again in the
   message truncates the text there.
   */
  lemma ChatTextSpan(line: string, individual: string, from: int)
    requires individual != [] && Contains(line, individual)
    requires from == |SplitOnce(line, individual)[0]| + |individual|
    ensures 0 <= from <= |line|
    ensures ChatText(line, individual) == Some(Strip(ReplaceFirst(line[from..NextOrEnd(line, individual, from)], ':')))
  {
    var piece := SecondPiece(line, individual).value;
    SecondPieceSpan(line, individual, from, piece);
    PieceToNext(line, individual, from, piece);
  }

  /** `"https" in line` never decides anything that `"http" in line` has not already decided. */
  lemma HttpsImpliesHttp(line: string)
    ensures Contains(line, HttpsLink) ==> Contains(line, HttpLink)
  {
    if Contains(line, HttpsLink) {
      var k := Find(line, HttpsLink).value;
      assert line[k..k + |HttpLink|] == line[k..k + |HttpsLink|][..|HttpLink|];
      ContainsFromMatch(line, HttpLink, k);
    }
  }

  /** The per-line step of the mapping loop, in the order the source tests the line. */
  function ClassifyLine(line: string, folder: Folder): (r: LineOutcome)
    ensures Contains(line, AttachedMarker) <==> (r.AttachmentFound? || r.AttachmentMissing?)
    ensures r.AttachmentFound? || r.AttachmentMissing? ==>
      && r.ext == ExtensionOf(AttachmentFileName(line))
      && (r.AttachmentFound? <==> folder.present(folder.resolve(AttachmentFileName(line))))
    ensures r.AttachmentFound? ==> r.path == folder.resolve(AttachmentFileName(line))
    ensures r.LinkSkipped? <==> !Contains(line, AttachedMarker) && Contains(line, HttpLink)
    ensures r.Unparsed? <==> !Contains(line, AttachedMarker) && !Contains(line, HttpLink) && !Contains(line, "]")
    ensures r.EmptySender? <==>
      !Contains(line, AttachedMarker) && !Contains(line, HttpLink) && Individual(line) == Some([])
    ensures r.ChatLine? ==>
      && r.date == ChatDate(line)
      && r.individual != []
      && Individual(line) == Some(r.individual)
      && ChatText(line, r.individual) == Some(r.text)
  {
    HttpsImpliesHttp(line);
    if Contains(line, AttachedMarker) then
      var name := AttachmentFileName(line);
      var ext := ExtensionOf(name);
      var path := folder.resolve(name);
      if !folder.present(path) then AttachmentMissing(ext) else AttachmentFound(path, ext)
    else if Contains(line, HttpLink) || Contains(line, HttpsLink) then
      LinkSkipped
    else
      var date := ChatDate(line);
      match Individual(line)
      case None => Unparsed
      case Some(who) =>
        if who == [] then EmptySender
        else
          match ChatText(line, who)
          case None => Unparsed
          case Some(text) => ChatLine(date, who, text)
  }

  /** The entries a line adds to the transcript: at most one. */
  function LineEntries(o: LineOutcome): (es: seq<Entry>)
    ensures |es| <= 1
    ensures |es| == 1 <==> o.AttachmentFound? || o.ChatLine?
    ensures o.AttachmentFound? ==>
      && es[0].Attachment?
      && es[0].filePath == o.path
      && (o.ext.Some? ==> es[0].extension == o.ext.value)
      && (o.ext.None? ==> es[0].extension == "")
    ensures o.ChatLine? ==>
      && es[0].Chat?
      && es[0].chatDate == o.date && es[0].individual == o.individual && es[0].text == o.text
  {
    match o
    case AttachmentFound(path, ext) => [Attachment(path, ext.GetOr(""))]
    case ChatLine(date, who, text) => [Chat(date, who, text)]
    case _ => []
  }

  /** The sender a line adds to `individuals`, if any. */
  function SenderOf(o: LineOutcome): Option<string> {
    match o
    case ChatLine(_, who, _) => Some(who)
    case _ => None
  }

  /** The extension a line adds to `extensions`, if any: recorded whether or not the file exists. */
  function RecordedExtension(o: LineOutcome): Option<string> {
    match o
    case AttachmentFound(_, ext) => ext
    case AttachmentMissing(ext) => ext
    case _ => None
  }

  /** Every line of the transcript, classified on its own. */
  function Outcomes(lines: seq<string>, folder: Folder): (outcomes: seq<LineOutcome>)
    ensures |outcomes| == |lines|
    ensures forall i :: 0 <= i < |lines| ==> outcomes[i] == ClassifyLine(lines[i], folder)
  {
    seq(|lines|, i requires 0 <= i < |lines| => ClassifyLine(lines[i], folder))
  }

  /** Reference definition: the entries of every line, one line after another. */
  function Entries(outcomes: seq<LineOutcome>): seq<Entry> {
    if outcomes == [] then []
    else Entries(outcomes[..|outcomes| - 1]) + LineEntries(outcomes[|outcomes| - 1])
  }

  /** The index of the first line with the error outcome, if any. */
  function FirstEmptySender(outcomes: seq<LineOutcome>): (r: Option<nat>)
    ensures r.Some? ==> r.value < |outcomes| && outcomes[r.value].EmptySender?
    ensures r.Some? ==> forall i :: 0 <= i < r.value ==> !outcomes[i].EmptySender?
    ensures r.None? <==> forall i :: 0 <= i < |outcomes| ==> !outcomes[i].EmptySender?
  {
    if outcomes == [] then None
    else if outcomes[0].EmptySender? then Some(0)
    else
      match FirstEmptySender(outcomes[1..])
      case None => None
      case Some(k) => Some(k + 1)
  }

  /** Reference definition: the senders of the lines, collected one line after another. */
  function Senders(outcomes: seq<LineOutcome>): set<string> {
    if outcomes == [] then {}
    else
      Senders(outcomes[..|outcomes| - 1]) +
      match SenderOf(outcomes[|outcomes| - 1]) case Some(who) => {who} case None => {}
  }

  /** Reference definition: the recorded extensions of the lines, one line after another. */
  function Extensions(outcomes: seq<LineOutcome>): set<string> {
    if outcomes == [] then {}
    else
      Extensions(outcomes[..|outcomes| - 1]) +
      match RecordedExtension(outcomes[|outcomes| - 1]) case Some(x) => {x} case None => {}
  }

  /** A sender is collected exactly when some line yields it. */
  lemma {:induction false} SendersSpec(outcomes: seq<LineOutcome>)
    ensures forall who :: who in Senders(outcomes) <==>
      exists i :: 0 <= i < |outcomes| && SenderOf(outcomes[i]) == Some(who)
  {
    if outcomes != [] {
      var init := outcomes[..|outcomes| - 1];
      SendersSpec(init);
      forall who | who in Senders(outcomes)
        ensures exists i :: 0 <= i < |outcomes| && SenderOf(outcomes[i]) == Some(who)
      {
        if who in Senders(init) {
          var i :| 0 <= i < |init| && SenderOf(init[i]) == Some(who);
          assert outcomes[i] == init[i];
        }
      }
      forall who, i | 0 <= i < |outcomes| && SenderOf(outcomes[i]) == Some(who)
        ensures who in Senders(outcomes)
      {
        if i < |init| {
          assert init[i] == outcomes[i];
        }
      }
    }
  }

  /** An extension is collected exactly when some line records it. */
  lemma {:induction false} ExtensionsSpec(outcomes: seq<LineOutcome>)
    ensures forall x :: x in Extensions(outcomes) <==>
      exists i :: 0 <= i < |outcomes| && RecordedExtension(outcomes[i]) == Some(x)
  {
    if outcomes != [] {
      var init := outcomes[..|outcomes| - 1];
      ExtensionsSpec(init);
      forall x | x in Extensions(outcomes)
        ensures exists i :: 0 <= i < |outcomes| && RecordedExtension(outcomes[i]) == Some(x)
      {
        if x in Extensions(init) {
          var i :| 0 <= i < |init| && RecordedExtension(init[i]) == Some(x);
          assert outcomes[i] == init[i];
        }
      }
      forall x, i | 0 <= i < |outcomes| && RecordedExtension(outcomes[i]) == Some(x)
        ensures x in Extensions(outcomes)
      {
        if i < |init| {
          assert init[i] == outcomes[i];
        }
      }
    }
  }

  /** Taking one more line into account adds that line's entries, sender and extension. */
  lemma PrefixStep(outcomes: seq<LineOutcome>, i: nat)
    requires i < |outcomes|
    ensures Entries(outcomes[..i + 1]) == Entries(outcomes[..i]) + LineEntries(outcomes[i])
    ensures Senders(outcomes[..i + 1]) ==
      Senders(outcomes[..i]) + match SenderOf(outcomes[i]) case Some(who) => {who} case None => {}
    ensures Extensions(outcomes[..i + 1]) ==
      Extensions(outcomes[..i]) + match RecordedExtension(outcomes[i]) case Some(x) => {x} case None => {}
  {
    assert outcomes[..i + 1][..i] == outcomes[..i];
  }

  /** A line with the error outcome, preceded by none, is the first one. */
  lemma FirstEmptySenderAt(outcomes: seq<LineOutcome>, i: nat)
    requires i < |outcomes| && outcomes[i].EmptySender?
    requires forall j :: 0 <= j < i ==> !outcomes[j].EmptySender?
    ensures FirstEmptySender(outcomes) == Some(i)
  {
  }

  /**
   The loop of `whatsmap_to_data` over the classified lines. The first line with
   the error outcome (a chat line whose sender is blank) aborts; otherwise the transcript is the in-order entries of the
   lines, and `individuals` and `extensions` hold exactly the senders and
   extensions some line yielded.
   */
  method Accumulate(outcomes: seq<LineOutcome>) returns (r: Result<TranscriptData, ParseError>)
    ensures r.Failure? <==> FirstEmptySender(outcomes).Some?
    ensures r.Failure? ==> r.error.line == FirstEmptySender(outcomes).value
    ensures r.Success? ==>
      r.value == TranscriptData(Senders(outcomes), Entries(outcomes), Extensions(outcomes))
  {
    var transcript: seq<Entry> := [];
    var individuals: set<string> := {};
    var extensions: set<string> := {};
    var i := 0;
    while i < |outcomes|
      invariant 0 <= i <= |outcomes|
      invariant transcript == Entries(outcomes[..i])
      invariant forall j :: 0 <= j < i ==> !outcomes[j].EmptySender?
      invariant individuals == Senders(outcomes[..i])
      invariant extensions == Extensions(outcomes[..i])
    {
      PrefixStep(outcomes, i);
      match outcomes[i] {
      case AttachmentFound(path, ext) =>
        if ext.Some? {
          extensions := extensions + {ext.value};
        }
        transcript := transcript + [Attachment(path, ext.GetOr(""))];
      case AttachmentMissing(ext) =>
        if ext.Some? {
          extensions := extensions + {ext.value};
        }
      case LinkSkipped =>
      case Unparsed =>
      case EmptySender =>
        FirstEmptySenderAt(outcomes, i);
        return Failure(EmptySeparator(i));
      case ChatLine(date, who, text) =>
        individuals := individuals + {who};
        transcript := transcript + [Chat(date, who, text)];
      }
      i := i + 1;
    }
    assert outcomes[..i] == outcomes;
    r := Success(TranscriptData(individuals, transcript, extensions));
  }

  /**
   `whatsmap_to_data`: split the transcript text into lines, classify each line
   and accumulate the results in line order.
   */
  method WhatsmapToData(chat: string, folder: Folder) returns (r: Result<TranscriptData, ParseError>)
    ensures var outcomes := Outcomes(SplitLines(chat), folder);
      && (r.Failure? <==> FirstEmptySender(outcomes).Some?)
      && (r.Failure? ==> r.error.line == FirstEmptySender(outcomes).value)
      && (r.Success? ==>
            r.value == TranscriptData(Senders(outcomes), Entries(outcomes), Extensions(outcomes)))
  {
    var lines := SplitLines(chat);
    r := Accumulate(Outcomes(lines, folder));
  }

  /** Mapping keeps line order: the entries of consecutive chunks of lines are concatenated. */
  lemma {:induction false} EntriesAppend(a: seq<LineOutcome>, b: seq<LineOutcome>)
    ensures Entries(a + b) == Entries(a) + Entries(b)
    decreases |b|
  {
    if b == [] {
      assert a + b == a;
    } else {
      var b' := b[..|b| - 1];
      assert (a + b)[..|a + b| - 1] == a + b';
      EntriesAppend(a, b');
    }
  }

  /**
   Every entry comes from its own line, and entries appear in the order of the
   lines that produced them: `origin` maps each entry to its line, strictly
   increasing, and each line yields at most one entry.
   */
  lemma {:induction false} EntriesOrigin(outcomes: seq<LineOutcome>) returns (origin: seq<nat>)
    ensures |origin| == |Entries(outcomes)| <= |outcomes|
    ensures forall k :: 0 <= k < |origin| ==> origin[k] < |outcomes|
    ensures forall k, m :: 0 <= k < m < |origin| ==> origin[k] < origin[m]
    ensures forall k :: 0 <= k < |origin| ==> LineEntries(outcomes[origin[k]]) == [Entries(outcomes)[k]]
  {
    if outcomes == [] {
      origin := [];
    } else {
      var init := outcomes[..|outcomes| - 1];
      var prev := EntriesOrigin(init);
      var last := LineEntries(outcomes[|outcomes| - 1]);
      assert Entries(outcomes) == Entries(init) + last;
      if last == [] {
        origin := prev;
      } else {
        origin := prev + [|outcomes| - 1];
      }
      forall k | 0 <= k < |prev|
        ensures outcomes[prev[k]] == init[prev[k]]
        ensures Entries(outcomes)[k] == Entries(init)[k]
      {
      }
    }
  }
}

=== FILE: wrappers.dfy ===
/** Option and Result, used across the model. */
module Wrappers {

  /** A value that may be absent. */
  datatype Option<+T> = None | Some(value: T) {

    /** Returns the value, or `default` when absent. */
    function GetOr(default: T): T {
      match this
      case Some(v) => v
      case None => default
    }
  }

  /** The outcome of an operation that may raise an error. */
  datatype Result<+R, +E> = Success(value: R) | Failure(error: E)
}
